=== FILE: README.md ===
# DigiSign signing core, modelled in Dafny

DigiSign lets a user open a PDF in the browser and type a signature into an overlay. The user drags the overlay onto a page and downloads the signed PDF. The signed file is also uploaded to a small server, which stores it, lists the stored PDFs and deletes them on request. The audit page shows that listing and guards each deletion with a typed confirmation.

This project models the decision-making core of those three pieces:

- **Signing page** (`Frontend/src/Pages/Upload.jsx`). It covers:
  - the font chosen for a font name (module `Fonts`);
  - the drag controller of the overlay (`Drag`);
  - the choice of target page and the pixel-to-PDF coordinate mapping with its baseline and zero-size fallbacks (`Geometry`);
  - reading the `#rrggbb` colour with `parseInt(…, 16) / 255` (`Colour`);
  - the drawing command and the metadata sent with the signed file (`Signing`).
- **Server routes** (`Backend/Routes/uploadRoutes.js`). It covers:
  - the stored file name;
  - the upload answer;
  - the `.pdf` listing filter;
  - the delete route with its basename sanitising and its 400, 404 and 500 outcomes (`Store`).
- **Audit page** (`Frontend/src/Pages/Audit.jsx`). It covers:
  - turning listing entries into rows;
  - the confirmation dialog and the gate of its Delete button;
  - the list the page keeps after a successful delete (`Audit`).

Shared pieces live in `Basics` (`Option`, `Result`), `Text` (prefix and suffix tests, ASCII lower-casing, decimal numerals) and `Seqs` (filter and subsequence).

Every operation is a pure function. Each takes a snapshot of what the code reads: bounding rectangles, PDF page sizes, the measured text width, the directory listing, the clock, and whether the file system refuses an unlink. It returns what the code decides. Numbers are exact reals, not IEEE doubles.

Behaviour worth knowing, as the code has it:

- When no page canvas contains the overlay, the code keeps page index 0. It does not pick the nearest page (`Geometry.TargetPageIndex`).
- For a 200x30 overlay 900 pixels down an 800x1000 canvas of a 612x792 page, the baseline lands at exactly 61.38 (`Geometry.TwoPageScenario`).
- A zero-width or zero-height canvas makes the code's scale factors non-finite, and a colour component with no hexadecimal digit after its leading white space, sign and `0x` makes `parseInt` return `NaN`. The model turns both into explicit errors (`DegenerateCanvas` and `ColourNotANumber`). It does not carry `Infinity` or `NaN` into the drawing call.
- Once the uploads directory exists, a delete request whose basename is `""`, `.` or `..` names a directory. It passes the existence check but cannot be unlinked, so the route answers 500 rather than 404 (`Store.HandleDelete`). Before the first upload creates that directory, `""` and `.` name nothing and answer 404; `..` names the routes' parent directory and still answers 500 (`Store.HandleDeleteWithoutDirectory`).
- The upload middleware reports only the base name of the client's file name: what follows the last `/` or `\`, with `.` and `..` made empty. A client name `a/b.pdf` is stored as `<timestamp>-b.pdf` (`Store.ClientBaseName`).
- A delete request whose basename holds a NUL character makes the existence check throw before it reaches the disk. The framework then answers 500 with its error page (`Store.HandleDelete`).

## Model

| member | source | states |
|---|---|---|
| Fonts.FontFile | Frontend/src/Pages/Upload.jsx:113-125 | each of the three known names loads its own font program from the table; every other name loads the Lobster file; the result is always one of the three files |
| Drag.Step | Frontend/src/Pages/Upload.jsx:59-77 | only a move during a drag changes the position; a drag is on after a mouse-down, or after a move while one was already on; after a mouse-down or a dragging move, position plus grab offset equals the pointer; only a mouse-down changes the grab offset |
| Drag.Run | Frontend/src/Pages/Upload.jsx:59-86 | events applied in order: a run ending in a mouse-up is not dragging, a run without moves leaves the overlay where it was, and a run without mouse-downs keeps the grab offset |
| Drag.MoveWhileIdle | Frontend/src/Pages/Upload.jsx:67-68 | a move while not dragging changes nothing |
| Drag.DownThenMove | Frontend/src/Pages/Upload.jsx:59-73 | after a mouse-down at p0, a move to p shifts the overlay by p - p0 |
| Drag.MoveBackRestores | Frontend/src/Pages/Upload.jsx:59-73 | returning the pointer to where the drag began puts the overlay back where it was |
| Drag.UpReleases | Frontend/src/Pages/Upload.jsx:75-77 | a mouse-up ends the drag and leaves the position as it was |
| Drag.DragFollowsLastMove | Frontend/src/Pages/Upload.jsx:59-73 | after a mouse-down and any non-empty run of moves, the overlay is where the last move alone puts it, and the drag is still on |
| Drag.RunDragging | Frontend/src/Pages/Upload.jsx:67-73 | during a drag, any run of moves keeps the grab offset and ends at the last pointer minus that offset |
| Drag.IdleIgnoresPointer | Frontend/src/Pages/Upload.jsx:67-77 | without a mouse-down, no sequence of moves and mouse-ups moves the overlay |
| Geometry.FirstEnclosing | Frontend/src/Pages/Upload.jsx:133-141 | the loop stops at the smallest index whose canvas vertically contains the overlay; when it finds none, no canvas contains it |
| Geometry.TargetPageIndex | Frontend/src/Pages/Upload.jsx:133-141 | the target is the first containing page; it is page 0 when none contains the overlay; it is in range whenever a page is rendered |
| Geometry.FirstEnclosingScrollInvariant | Frontend/src/Pages/Upload.jsx:131-137 | scrolling the overlay and every page by the same offset never changes the target page |
| Geometry.PdfX | Frontend/src/Pages/Upload.jsx:147-157 | the mapped x times the canvas width is the overlay centre's offset times the page width, so the centre keeps its fraction of the width; the canvas centre maps to the page centre, and the canvas edges to 0 and the page width |
| Geometry.PdfY | Frontend/src/Pages/Upload.jsx:148-158 | the baseline, three quarters down the overlay, is flipped to PDF space: the canvas top maps to the page height, the canvas bottom to 0, and the distance from the top scales by page height over canvas height |
| Geometry.PdfYStrictlyDecreasing | Frontend/src/Pages/Upload.jsx:158 | for positive canvas and page heights, an overlay lower on the canvas lands strictly lower on the page |
| Geometry.MapToPage | Frontend/src/Pages/Upload.jsx:143-158 | an anchor exists exactly when the canvas has non-zero width and height; the anchor's x is the overlay centre's offset from the canvas's left edge scaled to the page width, and the anchor's distance below the page top is the baseline's offset from the canvas top scaled to the page height; an overlay centred on the canvas lands at half the page width, a baseline on the canvas top at the page height and one on the canvas bottom at 0 |
| Geometry.ZeroSizeFallback | Frontend/src/Pages/Upload.jsx:154-155 | an overlay measured zero high is mapped as if it were fontSize high, and one zero wide as if 100 wide; an overlay with a height is mapped the same for any two font sizes |
| Geometry.MapToPageScrollInvariant | Frontend/src/Pages/Upload.jsx:147-148 | only the overlay's position relative to the canvas matters, not the scroll offset |
| Geometry.TwoPageScenario | Frontend/src/Pages/Upload.jsx:133-158 | a two-page document with a 200x30 overlay at (150, 900) on an 800x1000 canvas of a 612x792 page is signed on page index 0 at (191.25, 61.38) |
| Colour.ParseTwoHexDigits | Frontend/src/Pages/Upload.jsx:168 | `parseInt` in base 16 of two hexadecimal digits is the byte they spell |
| Colour.ParseIntHex | Frontend/src/Pages/Upload.jsx:168-170 | `parseInt(…, 16)`: a string of white space only, or one starting with a character that is neither white space, a sign nor a hexadecimal digit, gives `NaN`; a negative result needs a leading minus sign |
| Colour.Component | Frontend/src/Pages/Upload.jsx:168-170 | a component exists exactly when its slice parses, and 255 times it is the parsed integer |
| Colour.ParseColour | Frontend/src/Pages/Upload.jsx:167-171 | a colour exists exactly when all three slices parse; 255 times each component is its slice's parsed integer; a string of at most one character has no colour |
| Colour.HexComponent | Frontend/src/Pages/Upload.jsx:168-170 | a two-digit component is its byte over 255, a value in [0, 1] |
| Colour.ComponentAt | Frontend/src/Pages/Upload.jsx:168-170 | the slice at a well-formed pair of positions yields that pair's byte over 255 |
| Colour.HexColourComponents | Frontend/src/Pages/Upload.jsx:167-171 | for `#` followed by six hexadecimal digits, the colour is the three two-digit bytes over 255, each in [0, 1] |
| Colour.HexByte | Frontend/src/Pages/Upload.jsx:316-321 | every byte has the two lower-case digits the colour input writes, and they parse back to it |
| Colour.FormatColour | Frontend/src/Pages/Upload.jsx:316-321 | the colour input's `#rrggbb` value for any three bytes is a well-formed colour string whose six digits are lower-case |
| Colour.ColourRoundTrip | Frontend/src/Pages/Upload.jsx:167-171 | formatting three bytes as a colour string and reading it back gives each byte over 255 |
| Colour.BlackAndWhite | Frontend/src/Pages/Upload.jsx:167-171 | `#000000` reads as all zeros and `#ffffff` as all ones |
| Colour.Slice | Frontend/src/Pages/Upload.jsx:168-170 | within bounds, the slice is the substring; it is never longer than the string |
| Signing.CentredLeft | Frontend/src/Pages/Upload.jsx:160-163 | the drawn text's midpoint sits on the anchor |
| Signing.Sign | Frontend/src/Pages/Upload.jsx:105-182 | each failure happens exactly when its cause does: no signature; no rendered page; no PDF page at the target index; a zero-size target canvas; a colour with a `NaN` component. On success the page is the target page, the recorded page number is that index plus one, the text is centred on the recorded position and drawn at its y, the colour is the parsed colour, and the chosen font, size and the `signed-` name are used |
| Signing.CentringIndependentOfText | Frontend/src/Pages/Upload.jsx:157-163 | two signatures of different widths placed with the same overlay share their midpoint and baseline |
| Signing.SignSucceeds | Frontend/src/Pages/Upload.jsx:105-171 | with a signature, a well-formed colour, a PDF page behind every rendered page and no zero-size canvas, signing succeeds |
| Signing.MetadataRecordsAnchor | Frontend/src/Pages/Upload.jsx:178-182 | the position sent with the file is the uncentred anchor on the target page |
| Store.ClientBaseName | Backend/Routes/uploadRoutes.js:17-19 | the `originalname` the middleware hands the filename callback holds no `/` or `\`, is not `.` or `..`, ends the name the client sent, and equals it when that name has no separator and is not `.` or `..` |
| Store.ClientBaseNameIdempotent | Backend/Routes/uploadRoutes.js:17-19 | the reported name is already a base name |
| Store.PdfNameSurvivesBaseName | Backend/Routes/uploadRoutes.js:17-19 | a client name ending in `.pdf`, in any letter case, keeps that ending in the reported name |
| Store.StoredName | Backend/Routes/uploadRoutes.js:17-19 | the stored name starts with the timestamp's numeral and a dash and ends with the reported base name |
| Store.StoredNameRoundTrip | Backend/Routes/uploadRoutes.js:17-19 | a stored name determines the timestamp and the base name it was made from |
| Store.ParseStoredName | Backend/Routes/uploadRoutes.js:18 | a parsed name is leading digits, a dash and the base name, the digits denoting the timestamp; a name not starting with a digit has no timestamp |
| Store.Store | Backend/Routes/uploadRoutes.js:9-19 | after the write the directory holds the new name and every name it held before, and nothing else |
| Store.HandleUpload | Backend/Routes/uploadRoutes.js:24-35 | the answer is 400 "No file uploaded" exactly when no file arrived, and then nothing is stored; otherwise it is 200 with the stored name of the client's base name, and the directory gains that name |
| Store.UploadKeepsDirectoryValid | Backend/Routes/uploadRoutes.js:17-19 | uploading any client name without NUL keeps the directory made of distinct valid names |
| Store.ListPdfs | Backend/Routes/uploadRoutes.js:49-50 | the listing holds exactly the directory's names whose lower-cased form ends in `.pdf`, each as often as in the directory and in directory order |
| Store.HandleList | Backend/Routes/uploadRoutes.js:43-51 | a directory that cannot be read gives 500 "Unable to scan files"; otherwise 200 with the listing |
| Store.IsPdfName | Backend/Routes/uploadRoutes.js:49 | a name passes exactly when it has at least four characters and its last four, lower-cased, are `.pdf` |
| Store.StoredPdfIsListed | Backend/Routes/uploadRoutes.js:17-19 | an upload named `.pdf`, in any letter case, is stored under a name the listing keeps |
| Store.UploadedPdfAppearsInListing | Backend/Routes/uploadRoutes.js:24-50 | after an upload whose client name ends in `.pdf`, the next listing shows the stored name of its base name |
| Store.Basename | Backend/Routes/uploadRoutes.js:63 | the sanitised name holds no `/`; a name without `/` is kept as it is |
| Store.RemoveName | Backend/Routes/uploadRoutes.js:73-78 | after the unlink no entry of that name is left; every other name keeps its count and the order is kept |
| Store.ListingWithoutName | Backend/Routes/uploadRoutes.js:49-78 | listing after a deletion equals the earlier listing with that name removed |
| Store.HandleDelete | Backend/Routes/uploadRoutes.js:55-81 | a missing or empty name is 400 "Filename is required"; a basename holding NUL is 500 with the framework's error page; 404 exactly when the basename is free of NUL, absent and not a directory name; 200 exactly when the basename is free of NUL, present, not a directory name and the unlink succeeds, and then that name is removed; every non-200 answer leaves the directory as it was |
| Store.HandleDeleteWithoutDirectory | Backend/Routes/uploadRoutes.js:55-81 | before the uploads directory exists: 400 for a missing or empty name, 500 with the error page for a NUL basename, 500 for `..`, and 404 exactly for every other name; never 200 |
| Store.MissingDirectoryActsEmpty | Backend/Routes/uploadRoutes.js:11-14 | a missing uploads directory answers as an empty one, except that a basename of `""` or `.` answers 404 instead of 500 |
| Store.DeletePlainName | Backend/Routes/uploadRoutes.js:55-78 | deleting a stored name answers 200 and removes exactly that name |
| Store.DeleteKeepsDirectoryValid | Backend/Routes/uploadRoutes.js:55-81 | deletion keeps the directory made of distinct valid names |
| Audit.Normalise | Frontend/src/Pages/Audit.jsx:20-34 | a bare name becomes a row of that name with no dates; a record keeps its name and dates; the link is always the uploads address followed by the row's name |
| Audit.NormaliseAll | Frontend/src/Pages/Audit.jsx:20-34 | the rows keep the listing's length and order, the row at each position being that entry's record |
| Audit.UrlNamesDoc | Frontend/src/Pages/Audit.jsx:24-30 | a row's link leads back to the row's own name |
| Audit.RowsOfListing | Frontend/src/Pages/Audit.jsx:17-35 | a listing of bare names gives one row per name, in order, with no dates |
| Audit.Loaded | Frontend/src/Pages/Audit.jsx:17-35 | receiving the listing replaces the rows and changes nothing else on the page |
| Audit.ConfirmDelete | Frontend/src/Pages/Audit.jsx:48-52 | choosing a row records it, clears the typed text and opens the dialog, and keeps the rows |
| Audit.Type | Frontend/src/Pages/Audit.jsx:146-149 | typing changes only the typed text |
| Audit.Cancel | Frontend/src/Pages/Audit.jsx:154-155 | Cancel closes the dialog and changes nothing else |
| Audit.HandleDelete | Frontend/src/Pages/Audit.jsx:55-69 | a request goes out exactly when a row is chosen and the text is exactly `DELETE`, and it names that row; nothing happens exactly when no row is chosen |
| Audit.ReopenNeedsRetyping | Frontend/src/Pages/Audit.jsx:48-60 | right after the dialog opens, Delete always demands that `DELETE` be typed, whatever was typed before |
| Audit.TypedDeleteRequests | Frontend/src/Pages/Audit.jsx:48-69 | in a freshly opened dialog, the request for the chosen row goes out exactly when `DELETE` was typed |
| Audit.WithoutName | Frontend/src/Pages/Audit.jsx:73-75 | the rows kept have other names; every such row keeps its count, and the order is kept |
| Audit.DeleteSucceeded | Frontend/src/Pages/Audit.jsx:70-77 | after a successful answer, every row of that name is gone, the dialog is closed and no row is chosen |
| Audit.RowsWithoutName | Frontend/src/Pages/Audit.jsx:73-75 | removing a name from a listing and then showing it is the same as removing that name's rows |
| Audit.PageAgreesWithServer | Frontend/src/Pages/Audit.jsx:62-78 | when the server deletes a stored name with 200, the rows the page keeps are exactly the rows a fresh listing of the server's directory would give |
| Text.DecimalRoundTrip | Backend/Routes/uploadRoutes.js:18 | the timestamp's decimal numeral reads back as the timestamp |
| Text.Decimal | Backend/Routes/uploadRoutes.js:18 | the timestamp's numeral is non-empty, all digits, and starts with 0 only for 0 |
| Text.ToLower | Backend/Routes/uploadRoutes.js:49 | same length, each character lower-cased on its own, no upper-case ASCII letter left, every other character kept |
| Text.ToLowerConcat | Backend/Routes/uploadRoutes.js:49 | lower-casing distributes over concatenation |
| Seqs.Filter | Backend/Routes/uploadRoutes.js:49 | the filter keeps exactly the elements satisfying the test, with their counts and in order |
| Seqs.FilterCommutes | Backend/Routes/uploadRoutes.js:49 | two filters give the same result in either order, which is why listing and deleting commute |

## Left out

- The PDF library is not modelled: loading, `embedFont`, `getPages`, `drawText` and `save`. The measured text width is an input of `Signing.Sign`, and the page sizes are part of the snapshot.
- Signing.Sign: a failed font fetch, or a fetched body that is not a font, makes the handler stop before drawing, uploading or downloading anything. The model assumes the font loads and is embedded.
- Signing.Sign: the `signedAt` time sent with the signed file comes from the clock and is not part of `Metadata`.
- Signing.Sign: a rendered page whose canvas is not yet in the page makes reading its rectangle throw. The snapshot holds one rectangle per page and cannot express a missing canvas.
- The upload request from the signing page, the blob download and the toasts are not modelled. They are I/O that happens after the drawing is decided.
- The DOM is not modelled. Bounding rectangles are given as a snapshot, the listeners are taken to deliver events in order, and the default placement 300 ms after loading (`Upload.jsx` lines 44-57) is left out as timer and DOM work. The initial overlay position (`Upload.jsx` line 23) is not singled out; every lemma holds from any state.
- The file picker's MIME check (`Upload.jsx` lines 34-42) is outside this core.
- Signing.Sign: the early return for a missing file or a missing element ref is not modelled, because those are DOM and React states. Only the empty-signature check is modelled.
- Signing.Sign: a font size that parses as `NaN` is not modelled. The size is a real.
- JavaScript floating point is not modelled. All arithmetic is exact, so `Geometry.TwoPageScenario` states 61.38 where a double would carry a rounding error.
- Geometry.PdfYStrictlyDecreasing: also requires a positive page height. With a zero-height page every baseline is 0, so y cannot strictly decrease.
- Geometry.MapToPage: a zero-size canvas gives non-finite coordinates in the code. The model reports it as `DegenerateCanvas` instead.
- Colour.ParseColour: a `NaN` component would reach the PDF library's colour call. The model reports it as `ColourNotANumber`. The library's own range checks are not modelled.
- Text.ToLower lower-cases only ASCII letters. Non-ASCII letters never fold into `.`, `p`, `d` or `f`, so the `.pdf` verdict is the same either way, but other parts of the lower-cased name may differ.
- Text.Decimal prints timestamps as plain digits. The exponent form JavaScript uses from 1e21 upward is not modelled. The clock itself is an input.
- The upload middleware's internals are not modelled: directory creation, stream writing and field parsing. A stored file is a name added to the directory.
- Store.ClientBaseName follows the upload middleware's default base naming, which keeps no path. The middleware is not part of this model's source.
- Store.HandleUpload: its 200 answer assumes a client name without NUL. Writing a file whose name holds NUL fails inside the middleware, and that failure is not modelled.
- Store.UploadKeepsDirectoryValid requires the client's name to be free of NUL, for the same reason.
- Store.HandleDelete assumes the uploads directory exists; `Store.HandleDeleteWithoutDirectory` covers the time before the first upload. The model does not track the directory's creation as state.
- The model keeps one uploads directory. The upload middleware writes to `uploads` relative to the server's working directory (`uploadRoutes.js` line 11, served the same way at `server.js` line 11). The list and delete routes read `uploads` next to the routes' parent directory (`uploadRoutes.js` lines 44 and 64). These are the same directory only when the server is started from `Backend/`. `Store.UploadedPdfAppearsInListing` and `Audit.PageAgreesWithServer` assume it is.
- The upload route's 500 "Server error" branch is not modelled. Nothing in the modelled route can throw.
- Store.Basename follows POSIX path rules. Windows separators are not modelled.
- A query parameter given more than once (an array) is not modelled. The requested name is a single string or absent.
- The asynchronous file-system calls are modelled only by their outcome. A refused unlink is the `unlinkFails` input, and a failed directory read is a `None` snapshot.
- The audit page's fetch calls, their failure toasts and the View button are not modelled. A failed delete leaves the page state unchanged, so it needs no function.
- Concurrent requests and double submissions are not modelled.
- The rest of the repository is not part of this model: sign-in, registration, the dashboard, the router, the signature box component, the auth service, the server bootstrap and the unused database schema.

=== FILE: audit.dfy ===
/**
 * The audit page: the server's listing turned into display records, the
 * type-"DELETE" confirmation, and the list kept after a deletion. Each
 * handler is a function from the page state to the next page state; the
 * requests themselves are not modelled, only what is asked and what is done
 * with the answer.
 */
module Audit {
  import opened Basics
  import opened Text
  import opened Seqs
  import Store

  /** Where the server serves stored files from. */
  const UploadsUrl: string := "http://localhost:5000/uploads/"

  /** The word that must be typed to confirm a deletion. */
  const ConfirmWord: string := "DELETE"

  /** An entry of the listing: a bare file name, or a record describing the file. */
  datatype Entry =
    | Plain(file: string)
    | Described(filename: string, signedAt: Option<string>, signedBy: Option<string>)

  /** A row of the page. */
  datatype Doc = Doc(name: string, url: string, signedAt: Option<string>, signedBy: Option<string>)

  /** The page state: the rows, whether the dialog is open, the row chosen for deletion, the typed text. */
  datatype Page = Page(docs: seq<Doc>, showConfirm: bool, docToDelete: Option<Doc>, confirmText: string)

  // ---------------------------------------------------------------------------
  // Normalisation

  /** The display record of one entry; its link always points at the stored file of the same name. */
  function Normalise(e: Entry): (d: Doc)
    ensures d.url == UploadsUrl + d.name
    ensures e.Plain? ==> d.name == e.file && d.signedAt == None && d.signedBy == None
    ensures e.Described? ==> d.name == e.filename && d.signedAt == e.signedAt && d.signedBy == e.signedBy
  {
    match e
    case Plain(f) => Doc(f, UploadsUrl + f, None, None)
    case Described(f, when, who) => Doc(f, UploadsUrl + f, when, who)
  }

  /** The file name a row's link points at. */
  function NameOfUrl(url: string): Option<string> {
    if StartsWith(url, UploadsUrl) then Some(url[|UploadsUrl|..]) else None
  }

  /** A row's link leads back to the row's own name. */
  lemma UrlNamesDoc(e: Entry)
    ensures NameOfUrl(Normalise(e).url) == Some(Normalise(e).name)
  {
    var d := Normalise(e);
    assert d.url[..|UploadsUrl|] == UploadsUrl;
    assert d.url[|UploadsUrl|..] == d.name;
  }

  /** Every entry normalised, one row per entry, in order. */
  function NormaliseAll(es: seq<Entry>): (ds: seq<Doc>)
    ensures |ds| == |es|
    ensures forall i :: 0 <= i < |es| ==> ds[i] == Normalise(es[i])
  {
    seq(|es|, i requires 0 <= i < |es| => Normalise(es[i]))
  }

  /** The server's listing of bare names, as entries. */
  function PlainEntries(names: seq<string>): (es: seq<Entry>)
    ensures |es| == |names|
    ensures forall i :: 0 <= i < |names| ==> es[i] == Plain(names[i])
  {
    seq(|names|, i requires 0 <= i < |names| => Plain(names[i]))
  }

  /** The rows shown for a listing of bare names: same names, same order, no dates. */
  lemma RowsOfListing(names: seq<string>)
    ensures |NormaliseAll(PlainEntries(names))| == |names|
    ensures forall i :: 0 <= i < |names| ==>
      NormaliseAll(PlainEntries(names))[i] == Doc(names[i], UploadsUrl + names[i], None, None)
  {
  }

  /** The page once the listing has been received. */
  function Loaded(p: Page, listing: seq<Entry>): (q: Page)
    ensures q.docs == NormaliseAll(listing)
    ensures q.(docs := p.docs) == p
  {
    p.(docs := NormaliseAll(listing))
  }

  // ---------------------------------------------------------------------------
  // Confirmation

  /**
   * Clicking a row's Delete button: the row is chosen, the typed text is
   * cleared and the dialog opens. Nothing else changes.
   */
  function ConfirmDelete(p: Page, doc: Doc): (q: Page)
    ensures q.docToDelete == Some(doc) && q.confirmText == "" && q.showConfirm
    ensures q.docs == p.docs
  {
    p.(docToDelete := Some(doc), confirmText := "", showConfirm := true)
  }

  /** Typing in the dialog's input. */
  function Type(p: Page, text: string): (q: Page)
    ensures q.confirmText == text
    ensures q.(confirmText := p.confirmText) == p
  {
    p.(confirmText := text)
  }

  /** The dialog's Cancel button: it only hides the dialog. */
  function Cancel(p: Page): (q: Page)
    ensures !q.showConfirm
    ensures q.(showConfirm := p.showConfirm) == p
  {
    p.(showConfirm := false)
  }

  /** What pressing the dialog's Delete button does. */
  datatype Attempt =
    | NothingChosen           // no row chosen: nothing happens
    | MustTypeDelete          // the text is not DELETE: an error notice, no request
    | RequestDelete(name: string)  // the delete request for that name is sent

  /** The delete handler's gate. */
  function HandleDelete(p: Page): (a: Attempt)
    ensures a.RequestDelete? <==> p.docToDelete.Some? && p.confirmText == ConfirmWord
    ensures a.RequestDelete? ==> a.name == p.docToDelete.value.name
    ensures a == NothingChosen <==> p.docToDelete.None?
  {
    if p.docToDelete.None? then NothingChosen
    else if p.confirmText != ConfirmWord then MustTypeDelete
    else RequestDelete(p.docToDelete.value.name)
  }

  /** Opening the dialog always asks for DELETE to be typed again, whatever was typed before. */
  lemma ReopenNeedsRetyping(p: Page, doc: Doc)
    ensures HandleDelete(ConfirmDelete(p, doc)) == MustTypeDelete
  {
  }

  /** Typing DELETE in the opened dialog is exactly what lets the request for that row go out. */
  lemma TypedDeleteRequests(p: Page, doc: Doc, text: string)
    ensures HandleDelete(Type(ConfirmDelete(p, doc), text)) ==
            if text == ConfirmWord then RequestDelete(doc.name) else MustTypeDelete
  {
  }

  // ---------------------------------------------------------------------------
  // After the answer

  /** The test that keeps every row not called `name`. */
  function NamedOtherThan(name: string): (keep: Doc -> bool)
    ensures forall d: Doc :: keep(d) <==> d.name != name
  {
    (d: Doc) => d.name != name
  }

  /** The rows whose name is not `name`, in order. */
  function WithoutName(docs: seq<Doc>, name: string): (r: seq<Doc>)
    ensures forall i :: 0 <= i < |r| ==> r[i].name != name
    ensures forall d: Doc :: d.name != name ==> multiset(r)[d] == multiset(docs)[d]
    ensures SubsequenceOf(r, docs)
  {
    Filter(docs, NamedOtherThan(name))
  }

  /**
   * A successful answer to the delete request for `name`: every row of
   * that name leaves the list, the others stay in order; the dialog closes
   * and the choice is cleared. The typed text is left as it was.
   */
  function DeleteSucceeded(p: Page, name: string): (q: Page)
    ensures q.docs == WithoutName(p.docs, name)
    ensures !q.showConfirm && q.docToDelete.None?
    ensures q.confirmText == p.confirmText
  {
    Page(WithoutName(p.docs, name), false, None, p.confirmText)
  }

  // ---------------------------------------------------------------------------
  // Page and server agree

  /** The row shown for a bare name. */
  function Row(name: string): Doc {
    Doc(name, UploadsUrl + name, None, None)
  }

  /** The rows of a listing of bare names. */
  function Rows(names: seq<string>): (ds: seq<Doc>)
    ensures |ds| == |names|
    ensures forall i :: 0 <= i < |names| ==> ds[i] == Row(names[i])
  {
    NormaliseAll(PlainEntries(names))
  }

  /** The rows of a non-empty listing: the first name's row, then the rows of the rest. */
  lemma RowsCons(names: seq<string>)
    requires |names| > 0
    ensures Rows(names) == [Row(names[0])] + Rows(names[1..])
  {
    var a, b := Rows(names), [Row(names[0])] + Rows(names[1..]);
    assert |a| == |b|;
    forall i | 0 <= i < |a| ensures a[i] == b[i] {
      if i > 0 {
        assert b[i] == Rows(names[1..])[i - 1];
      }
    }
  }

  /** Dropping a name from a listing and then showing it drops that name's rows. */
  lemma {:induction false} RowsWithoutName(names: seq<string>, name: string)
    ensures Rows(Store.RemoveName(names, name)) == WithoutName(Rows(names), name)
    decreases |names|
  {
    var keepName, keepRow := Store.OtherThan(name), NamedOtherThan(name);
    if |names| > 0 {
      RowsWithoutName(names[1..], name);
      RowsCons(names);
      var rows := Rows(names);
      assert rows[1..] == Rows(names[1..]);
      var rest := Filter(names[1..], keepName);
      if names[0] != name {
        assert Filter(names, keepName) == [names[0]] + rest;
        RowsCons([names[0]] + rest);
        assert ([names[0]] + rest)[1..] == rest;
        assert Filter(rows, keepRow) == [rows[0]] + Filter(rows[1..], keepRow);
      } else {
        assert Filter(names, keepName) == rest;
        assert Filter(rows, keepRow) == Filter(rows[1..], keepRow);
      }
    }
  }

  /**
   * After a delete the server answers 200 to, the rows the page keeps are
   * exactly the rows a fresh listing of the server's directory would give.
   */
  lemma PageAgreesWithServer(dir: Store.Directory, name: string)
    requires Store.ValidDirectory(dir) && name in dir
    ensures var (resp, after) := Store.HandleDelete(Some(name), dir, false);
            resp.status == 200 &&
            Rows(Store.ListPdfs(after)) == WithoutName(Rows(Store.ListPdfs(dir)), name)
  {
    Store.ListingWithoutName(dir, name);
    RowsWithoutName(Store.ListPdfs(dir), name);
  }
}

=== FILE: basics.dfy ===
/** Failure-carrying values shared by every module of the model. */
module Basics {

  /** A value that may be missing: JavaScript's `undefined`, `null` or `NaN` results. */
  datatype Option<+T> = None | Some(value: T)

  /** The outcome of an operation that can throw. */
  datatype Result<+T, +E> = Ok(value: T) | Err(error: E)
}

=== FILE: colour.dfy ===
/**
 * The signature colour: the colour input's `#rrggbb` string read back into
 * three components in [0, 1] with `parseInt(slice, 16) / 255`.
 */
module Colour {
  import opened Basics

  /** Red, green and blue, each as a fraction of full intensity. */
  datatype Rgb = Rgb(r: real, g: real, b: real)

  // ---------------------------------------------------------------------------
  // Hexadecimal digits

  predicate IsHexDigit(c: char) {
    '0' <= c <= '9' || 'a' <= c <= 'f' || 'A' <= c <= 'F'
  }

  function HexDigitValue(c: char): (v: nat)
    requires IsHexDigit(c)
    ensures v < 16
  {
    if '0' <= c <= '9' then c as int - '0' as int
    else if 'a' <= c <= 'f' then c as int - 'a' as int + 10
    else c as int - 'A' as int + 10
  }

  /** A digit as the colour input writes it: `0`-`9` or lower-case `a`-`f`. */
  predicate IsLowerHexDigit(c: char) {
    '0' <= c <= '9' || 'a' <= c <= 'f'
  }

  /** The lower-case digit the colour input writes for `v`. */
  function HexDigitChar(v: nat): (c: char)
    requires v < 16
    ensures IsHexDigit(c) && HexDigitValue(c) == v
    ensures IsLowerHexDigit(c)
  {
    if v < 10 then ('0' as int + v) as char else ('a' as int + v - 10) as char
  }

  /**
   * The value of the hexadecimal digits at the start of `s`, read most
   * significant first after the digits already read into `acc`.
   */
  function LeadingHexValue(s: string, acc: nat): nat {
    if |s| == 0 || !IsHexDigit(s[0]) then acc
    else LeadingHexValue(s[1..], 16 * acc + HexDigitValue(s[0]))
  }

  // ---------------------------------------------------------------------------
  // parseInt(s, 16)

  /** The characters `parseInt` skips at the start: ECMAScript white space and line terminators. */
  predicate IsJsWhiteSpace(c: char) {
    c == '\t' || c == '\n' || c == '\U{B}' || c == '\U{C}' || c == '\r' || c == ' ' ||
    c == '\U{A0}' || c == '\U{1680}' || '\U{2000}' <= c <= '\U{200A}' ||
    c == '\U{2028}' || c == '\U{2029}' || c == '\U{202F}' || c == '\U{205F}' ||
    c == '\U{3000}' || c == '\U{FEFF}'
  }

  /** `s` without its leading white space. */
  function TrimStart(s: string): string {
    if |s| > 0 && IsJsWhiteSpace(s[0]) then TrimStart(s[1..]) else s
  }

  /**
   * `parseInt(s, 16)`: skip leading white space, read an optional sign and an
   * optional `0x`/`0X` prefix, then as many hexadecimal digits as there are.
   * With no digit the result is `NaN`, here `None`.
   */
  function ParseIntHex(s: string): (r: Option<int>)
    ensures TrimStart(s) == [] ==> r.None?
    ensures |s| > 0 && !IsJsWhiteSpace(s[0]) && !IsHexDigit(s[0]) && s[0] != '-' && s[0] != '+' ==> r.None?
    ensures r.Some? && r.value < 0 ==> TrimStart(s)[0] == '-'
  {
    var t := TrimStart(s);
    var negative := |t| > 0 && t[0] == '-';
    var u := if |t| > 0 && (t[0] == '-' || t[0] == '+') then t[1..] else t;
    var v := if |u| >= 2 && u[0] == '0' && (u[1] == 'x' || u[1] == 'X') then u[2..] else u;
    if |v| == 0 || !IsHexDigit(v[0]) then None
    else
      var m: int := LeadingHexValue(v, 0);
      Some(if negative then -m else m)
  }

  /** Two hexadecimal digits parse to the byte they spell. */
  lemma ParseTwoHexDigits(s: string)
    requires IsHexPair(s)
    ensures ParseIntHex(s) == Some(PairValue(s))
  {
    assert !IsJsWhiteSpace(s[0]);
    assert TrimStart(s) == s;
    var d0, d1 := HexDigitValue(s[0]), HexDigitValue(s[1]);
    assert LeadingHexValue(s[1..][1..], 16 * d0 + d1) == PairValue(s);
    assert LeadingHexValue(s[1..], d0) == LeadingHexValue(s[1..][1..], 16 * d0 + d1);
    assert LeadingHexValue(s, 0) == LeadingHexValue(s[1..], d0);
  }

  // ---------------------------------------------------------------------------
  // String.prototype.slice and the colour

  /** `s.slice(i, j)` for non-negative bounds: both clamped to the length. */
  function Slice(s: string, i: nat, j: nat): (t: string)
    ensures j <= |s| && i <= j ==> t == s[i..j]
    ensures |t| <= |s|
  {
    var from := if i < |s| then i else |s|;
    var to := if j < |s| then j else |s|;
    if from >= to then [] else s[from..to]
  }

  /** What the colour input produces: `#` and six hexadecimal digits. */
  predicate IsHexColour(s: string) {
    |s| == 7 && s[0] == '#' && IsHexPair(s[1..3]) && IsHexPair(s[3..5]) && IsHexPair(s[5..7])
  }

  /** Two hexadecimal digits, as the colour input writes each byte. */
  predicate IsHexPair(part: string) {
    |part| == 2 && IsHexDigit(part[0]) && IsHexDigit(part[1])
  }

  /** The byte two hexadecimal digits spell. */
  function PairValue(part: string): (v: nat)
    requires IsHexPair(part)
    ensures v < 256
  {
    16 * HexDigitValue(part[0]) + HexDigitValue(part[1])
  }

  /**
   * One component: its two characters parsed as hexadecimal and divided by
   * 255. `parseInt` returns `NaN` when they do not start with a hexadecimal
   * digit, and then there is no component.
   */
  function Component(part: string): (c: Option<real>)
    ensures c.None? <==> ParseIntHex(part).None?
    ensures c.Some? ==> 255.0 * c.value == ParseIntHex(part).value as real
  {
    match ParseIntHex(part)
    case None => None
    case Some(v) => Some(v as real / 255.0)
  }

  /** The colour passed to the PDF drawing call; none when a component is `NaN`. */
  function ParseColour(s: string): (c: Option<Rgb>)
    ensures |s| <= 1 ==> c.None?
    ensures c.Some? <==> ParseIntHex(Slice(s, 1, 3)).Some? && ParseIntHex(Slice(s, 3, 5)).Some? &&
                         ParseIntHex(Slice(s, 5, 7)).Some?
    ensures c.Some? ==> 255.0 * c.value.r == ParseIntHex(Slice(s, 1, 3)).value as real
    ensures c.Some? ==> 255.0 * c.value.g == ParseIntHex(Slice(s, 3, 5)).value as real
    ensures c.Some? ==> 255.0 * c.value.b == ParseIntHex(Slice(s, 5, 7)).value as real
  {
    var r := Component(Slice(s, 1, 3));
    var g := Component(Slice(s, 3, 5));
    var b := Component(Slice(s, 5, 7));
    if r.None? || g.None? || b.None? then None
    else Some(Rgb(r.value, g.value, b.value))
  }

  /** Two hexadecimal digits give their byte over 255, a value in [0, 1]. */
  lemma HexComponent(part: string)
    requires IsHexPair(part)
    ensures Component(part) == Some(PairValue(part) as real / 255.0)
    ensures 0.0 <= Component(part).value <= 1.0
  {
    ParseTwoHexDigits(part);
    var m: int := PairValue(part);
    assert ParseIntHex(part) == Some(m);
  }

  /** The component starting at `i` of a well-formed colour string. */
  lemma ComponentAt(s: string, i: nat, j: nat)
    requires i + 2 == j <= |s| && IsHexPair(s[i..j])
    ensures Component(Slice(s, i, j)) == Some(PairValue(s[i..j]) as real / 255.0)
  {
    var part := Slice(s, i, j);
    assert part == s[i..j];
    assert IsHexPair(part);
    HexComponent(part);
  }

  /**
   * For `#` and six hexadecimal digits, each component is its two-digit
   * byte over 255, and so lies in [0, 1].
   */
  lemma HexColourComponents(s: string)
    requires IsHexColour(s)
    ensures ParseColour(s) == Some(Rgb(PairValue(s[1..3]) as real / 255.0,
                                       PairValue(s[3..5]) as real / 255.0,
                                       PairValue(s[5..7]) as real / 255.0))
    ensures InUnitCube(ParseColour(s).value)
  {
    ComponentAt(s, 1, 3);
    ComponentAt(s, 3, 5);
    ComponentAt(s, 5, 7);
    ColourOfComponents(s, PairValue(s[1..3]) as real / 255.0,
                          PairValue(s[3..5]) as real / 255.0,
                          PairValue(s[5..7]) as real / 255.0);
  }

  /** Three parsed components make the colour. */
  lemma ColourOfComponents(s: string, r: real, g: real, b: real)
    requires Component(Slice(s, 1, 3)) == Some(r)
    requires Component(Slice(s, 3, 5)) == Some(g)
    requires Component(Slice(s, 5, 7)) == Some(b)
    ensures ParseColour(s) == Some(Rgb(r, g, b))
  {
  }

  predicate InUnitCube(c: Rgb) {
    0.0 <= c.r <= 1.0 && 0.0 <= c.g <= 1.0 && 0.0 <= c.b <= 1.0
  }

  /** The two lower-case digits of a byte. */
  function HexByte(v: nat): (s: string)
    requires v < 256
    ensures IsHexPair(s) && PairValue(s) == v
    ensures forall k :: 0 <= k < |s| ==> IsLowerHexDigit(s[k])
  {
    [HexDigitChar(v / 16), HexDigitChar(v % 16)]
  }

  /** The string a colour input holds for the bytes `r`, `g`, `b`. */
  function FormatColour(r: nat, g: nat, b: nat): (s: string)
    requires r < 256 && g < 256 && b < 256
    ensures IsHexColour(s)
    ensures forall k :: 1 <= k < |s| ==> IsLowerHexDigit(s[k])
  {
    "#" + HexByte(r) + HexByte(g) + HexByte(b)
  }

  /** Formatting bytes as a colour string and parsing it back gives each byte over 255. */
  lemma ColourRoundTrip(r: nat, g: nat, b: nat)
    requires r < 256 && g < 256 && b < 256
    ensures ParseColour(FormatColour(r, g, b)) == Some(Rgb(r as real / 255.0, g as real / 255.0, b as real / 255.0))
  {
    var s := FormatColour(r, g, b);
    assert s[1..3] == HexByte(r) && s[3..5] == HexByte(g) && s[5..7] == HexByte(b);
    HexColourComponents(s);
  }

  /** Black is all zeros and white all ones. */
  lemma BlackAndWhite()
    ensures ParseColour("#000000") == Some(Rgb(0.0, 0.0, 0.0))
    ensures ParseColour("#ffffff") == Some(Rgb(1.0, 1.0, 1.0))
  {
    LiteralColour("#000000", 0, 0, 0);
    LiteralColour("#ffffff", 255, 255, 255);
  }

  /** A colour literal spelling the bytes `r`, `g` and `b` reads as them over 255. */
  lemma LiteralColour(s: string, r: nat, g: nat, b: nat)
    requires r < 256 && g < 256 && b < 256
    requires s == FormatColour(r, g, b)
    ensures ParseColour(s) == Some(Rgb(r as real / 255.0, g as real / 255.0, b as real / 255.0))
  {
    ColourRoundTrip(r, g, b);
  }
}

=== FILE: drag.dfy ===
/**
 * The signature overlay's drag controller: mouse-down on the overlay
 * records where it was grabbed, mouse-move anywhere moves it by the pointer
 * while a drag is on, mouse-up anywhere ends the drag.
 */
module Drag {
  import opened Geometry

  /**
   * `dragging` and `grab` are the two refs of the page, `pos` is the
   * overlay's position state. `grab` is the pointer minus the overlay
   * position at mouse-down.
   */
  datatype DragState = DragState(dragging: bool, grab: Point, pos: Point)

  /** Pointer events, with the pointer's client coordinates. */
  datatype Event = Down(pointer: Point) | Move(pointer: Point) | Up

  function Sub(a: Point, b: Point): Point {
    Point(a.x - b.x, a.y - b.y)
  }

  function Add(a: Point, b: Point): Point {
    Point(a.x + b.x, a.y + b.y)
  }

  /**
   * One event. Only a move while dragging changes the position; only a
   * mouse-down starts a drag, and a mouse-up always ends it.
   */
  function Step(s: DragState, e: Event): (r: DragState)
    ensures r.pos != s.pos ==> s.dragging && e.Move?
    ensures r.dragging <==> e.Down? || (s.dragging && e.Move?)
    ensures e.Down? ==> Add(r.pos, r.grab) == e.pointer
    ensures s.dragging && e.Move? ==> Add(r.pos, r.grab) == e.pointer
    ensures !e.Down? ==> r.grab == s.grab
  {
    match e
    case Down(p) => s.(dragging := true, grab := Sub(p, s.pos))
    case Move(p) => if !s.dragging then s else s.(pos := Sub(p, s.grab))
    case Up => s.(dragging := false)
  }

  /**
   * Events delivered in order; the last position written wins. A run ending
   * in a mouse-up is not dragging, a run without moves leaves the overlay
   * where it was, and a run without mouse-downs keeps the grab offset.
   */
  function Run(s: DragState, events: seq<Event>): (r: DragState)
    ensures |events| > 0 && events[|events| - 1].Up? ==> !r.dragging
    ensures (forall i :: 0 <= i < |events| ==> !events[i].Move?) ==> r.pos == s.pos
    ensures (forall i :: 0 <= i < |events| ==> !events[i].Down?) ==> r.grab == s.grab
    decreases |events|
  {
    if |events| == 0 then s
    else
      assert forall i :: 0 <= i < |events| - 1 ==> events[1..][i] == events[i + 1];
      Run(Step(s, events[0]), events[1..])
  }

  /** A move while not dragging leaves the overlay where it is. */
  lemma MoveWhileIdle(s: DragState, p: Point)
    requires !s.dragging
    ensures Step(s, Move(p)) == s
  {
  }

  /**
   * After a mouse-down at `p0` with the overlay at `s0`, a move to `p`
   * puts the overlay at `s0 + (p - p0)`: the grabbed point stays under the
   * pointer.
   */
  lemma DownThenMove(s: DragState, p0: Point, p: Point)
    ensures Step(Step(s, Down(p0)), Move(p)).pos == Add(s.pos, Sub(p, p0))
  {
  }

  /** Moving back to where the drag started puts the overlay back where it was. */
  lemma MoveBackRestores(s: DragState, p0: Point)
    ensures Step(Step(s, Down(p0)), Move(p0)).pos == s.pos
  {
  }

  /** A mouse-up ends the drag and leaves the position unchanged. */
  lemma UpReleases(s: DragState)
    ensures !Step(s, Up).dragging && Step(s, Up).pos == s.pos
  {
  }

  /** Only `Move` events. */
  function Moves(ps: seq<Point>): (es: seq<Event>)
    ensures |es| == |ps|
    ensures forall i :: 0 <= i < |ps| ==> es[i] == Move(ps[i])
  {
    seq(|ps|, i requires 0 <= i < |ps| => Move(ps[i]))
  }

  /**
   * During a drag started at `p0`, after any non-empty run of moves the
   * overlay is where the last move puts it, whatever came before.
   */
  lemma {:induction false} DragFollowsLastMove(s: DragState, p0: Point, ps: seq<Point>)
    requires |ps| > 0
    ensures Run(Step(s, Down(p0)), Moves(ps)).pos == Add(s.pos, Sub(ps[|ps| - 1], p0))
    ensures Run(Step(s, Down(p0)), Moves(ps)).dragging
    decreases |ps|
  {
    var d := Step(s, Down(p0));
    if |ps| == 1 {
      assert Moves(ps)[1..] == [];
    } else {
      var d1 := Step(d, Move(ps[0]));
      assert d1 == d.(pos := Sub(ps[0], d.grab));
      assert Moves(ps)[1..] == Moves(ps[1..]);
      RunDragging(d1, d.grab, ps[1..]);
    }
  }

  /** While dragging with grab offset `g`, moves keep the offset and end at the last pointer minus `g`. */
  lemma {:induction false} RunDragging(s: DragState, g: Point, ps: seq<Point>)
    requires s.dragging && s.grab == g && |ps| > 0
    ensures Run(s, Moves(ps)) == s.(pos := Sub(ps[|ps| - 1], g))
    decreases |ps|
  {
    var s1 := Step(s, Move(ps[0]));
    assert Moves(ps)[1..] == Moves(ps[1..]);
    if |ps| == 1 {
      assert Moves(ps[1..]) == [];
    } else {
      RunDragging(s1, g, ps[1..]);
    }
  }

  /** Without a mouse-down, no sequence of moves and mouse-ups moves the overlay. */
  lemma {:induction false} IdleIgnoresPointer(s: DragState, events: seq<Event>)
    requires !s.dragging
    requires forall i :: 0 <= i < |events| ==> !events[i].Down?
    ensures Run(s, events) == s
    decreases |events|
  {
    if |events| > 0 {
      assert Step(s, events[0]) == s;
      IdleIgnoresPointer(s, events[1..]);
    }
  }
}

=== FILE: fonts.dfy ===
/** Which font program the signing page fetches for the chosen font name. */
module Fonts {

  /** The file loaded for every name the picker does not know. */
  const DefaultFontFile: string := "Lobster-Regular.ttf"

  /** The picker's three font names and the font program each one loads. */
  const FontTable: map<string, string> := map[
    "Lobster" := "Lobster-Regular.ttf",
    "Courier Prime" := "CourierPrime-Regular.ttf",
    "Roboto" := "Roboto-Regular.ttf"
  ]

  /**
   * The `switch` on the selected font. It never fails: a known name loads
   * its own file and any other name loads the default.
   */
  function FontFile(name: string): (file: string)
    ensures name in FontTable ==> file == FontTable[name]
    ensures name !in FontTable ==> file == DefaultFontFile
    ensures file in FontTable.Values
  {
    match name
    case "Lobster" => "Lobster-Regular.ttf"
    case "Courier Prime" => "CourierPrime-Regular.ttf"
    case "Roboto" => "Roboto-Regular.ttf"
    case _ =>
      assert FontTable["Lobster"] == DefaultFontFile;
      DefaultFontFile
  }
}

=== FILE: geometry.dfy ===
/**
 * Geometry of signature placement: which rendered page the overlay is on,
 * and where its anchor falls in that page's PDF coordinates.
 *
 * Rectangles are snapshots of the browser's bounding client rectangles,
 * whose origin is the top-left of the viewport and whose y grows downwards.
 * PDF user space has its origin at the bottom-left of the page and its y
 * grows upwards. Arithmetic is exact (`real`).
 */
module Geometry {
  import opened Basics

  datatype Point = Point(x: real, y: real)

  /**
   * A bounding client rectangle. `Bottom()` is `top + height`, which is the
   * bottom edge the browser reports whenever the height is non-negative, as
   * it is for every laid-out element. The contracts below do not depend on
   * the sign of the width or height.
   */
  datatype Rect = Rect(left: real, top: real, width: real, height: real) {
    function Bottom(): real {
      top + height
    }

    /** The same rectangle moved by `(dx, dy)`, as scrolling moves it. */
    function Shift(dx: real, dy: real): Rect {
      Rect(left + dx, top + dy, width, height)
    }
  }

  /** A PDF page's native size, in PDF user-space units. */
  datatype Size = Size(width: real, height: real)

  // ---------------------------------------------------------------------------
  // Page selection

  /** The page's canvas vertically contains the whole overlay box. */
  predicate Encloses(page: Rect, sig: Rect) {
    sig.top >= page.top && sig.Bottom() <= page.Bottom()
  }

  /** The first page whose canvas vertically contains the overlay, if any. */
  function FirstEnclosing(sig: Rect, pages: seq<Rect>): (r: Option<nat>)
    ensures r.Some? ==> r.value < |pages| && Encloses(pages[r.value], sig)
    ensures r.Some? ==> forall j :: 0 <= j < r.value ==> !Encloses(pages[j], sig)
    ensures r.None? ==> forall j :: 0 <= j < |pages| ==> !Encloses(pages[j], sig)
  {
    if |pages| == 0 then None
    else if Encloses(pages[0], sig) then Some(0)
    else
      match FirstEnclosing(sig, pages[1..])
      case None => None
      case Some(k) => Some(k + 1)
  }

  /**
   * The target page of the loop over the rendered pages: the smallest index
   * whose canvas contains the overlay, and page 0 when none does (no nearest
   * page is chosen).
   */
  function TargetPageIndex(sig: Rect, pages: seq<Rect>): (i: nat)
    ensures |pages| > 0 ==> i < |pages|
    ensures (exists j :: 0 <= j < |pages| && Encloses(pages[j], sig)) ==>
              i < |pages| && Encloses(pages[i], sig) &&
              forall j :: 0 <= j < i ==> !Encloses(pages[j], sig)
    ensures (forall j :: 0 <= j < |pages| ==> !Encloses(pages[j], sig)) ==> i == 0
  {
    match FirstEnclosing(sig, pages)
    case Some(k) => k
    case None => 0
  }

  /** Scrolling moves the overlay and every page together and never changes the target page. */
  lemma {:induction false} FirstEnclosingScrollInvariant(sig: Rect, pages: seq<Rect>, dx: real, dy: real)
    ensures FirstEnclosing(sig.Shift(dx, dy), seq(|pages|, i requires 0 <= i < |pages| => pages[i].Shift(dx, dy)))
            == FirstEnclosing(sig, pages)
    decreases |pages|
  {
    var moved := seq(|pages|, i requires 0 <= i < |pages| => pages[i].Shift(dx, dy));
    if |pages| > 0 {
      FirstEnclosingScrollInvariant(sig, pages[1..], dx, dy);
      assert moved[1..] == seq(|pages[1..]|, i requires 0 <= i < |pages[1..]| => pages[1..][i].Shift(dx, dy));
    }
  }

  // ---------------------------------------------------------------------------
  // Pixel-to-PDF mapping

  /** Fraction of the overlay's height at which the text baseline is assumed. */
  const BaselineFraction: real := 0.75

  /** Overlay width used when the overlay measures zero pixels across. */
  const DefaultBoxWidth: real := 100.0

  /** JavaScript's `v || fallback` on a number: zero is replaced by the fallback. */
  function OrElse(v: real, fallback: real): real {
    if v == 0.0 then fallback else v
  }

  /**
   * The x of the overlay's horizontal centre in PDF units. The centre lies
   * at the same fraction of the page width as of the canvas width.
   */
  function PdfX(relX: real, boxWidth: real, pdfWidth: real, canvasWidth: real): (x: real)
    requires canvasWidth != 0.0
    ensures x * canvasWidth == (relX + boxWidth / 2.0) * pdfWidth
    ensures relX + boxWidth / 2.0 == canvasWidth / 2.0 ==> x == pdfWidth / 2.0
    ensures relX + boxWidth / 2.0 == canvasWidth ==> x == pdfWidth
    ensures relX + boxWidth / 2.0 == 0.0 ==> x == 0.0
  {
    (relX + boxWidth / 2.0) * (pdfWidth / canvasWidth)
  }

  /**
   * The baseline's y in PDF units: the baseline sits three quarters down the
   * overlay box, and the axis is flipped so that the canvas top maps to the
   * page height and the canvas bottom maps to 0.
   */
  function PdfY(relY: real, boxHeight: real, pdfHeight: real, canvasHeight: real): (y: real)
    requires canvasHeight != 0.0
    ensures relY + BaselineFraction * boxHeight == 0.0 ==> y == pdfHeight
    ensures relY + BaselineFraction * boxHeight == canvasHeight ==> y == 0.0
    ensures (pdfHeight - y) * canvasHeight == (relY + BaselineFraction * boxHeight) * pdfHeight
  {
    pdfHeight - (relY + boxHeight * BaselineFraction) * (pdfHeight / canvasHeight)
  }

  /** Lower on the canvas means lower on the page: y strictly decreases as relY grows. */
  lemma PdfYStrictlyDecreasing(relY1: real, relY2: real, boxHeight: real, pdfHeight: real, canvasHeight: real)
    requires canvasHeight > 0.0 && pdfHeight > 0.0
    requires relY1 < relY2
    ensures PdfY(relY1, boxHeight, pdfHeight, canvasHeight) > PdfY(relY2, boxHeight, pdfHeight, canvasHeight)
  {
    var k := pdfHeight / canvasHeight;
    QuotientPositive(pdfHeight, canvasHeight);
    var a1, a2 := relY1 + boxHeight * BaselineFraction, relY2 + boxHeight * BaselineFraction;
    ScaleKeepsOrder(a1, a2, k);
    SubtractReversesOrder(PdfY(relY1, boxHeight, pdfHeight, canvasHeight),
                          PdfY(relY2, boxHeight, pdfHeight, canvasHeight), pdfHeight, a1 * k, a2 * k);
  }

  /** A page height over a canvas height is a positive scale. */
  lemma QuotientPositive(a: real, b: real)
    requires a > 0.0 && b > 0.0
    ensures a / b > 0.0
  {
    assert (a / b) * b == a;
  }

  /** Scaling by a positive factor keeps strict order. */
  lemma ScaleKeepsOrder(a1: real, a2: real, k: real)
    requires a1 < a2 && k > 0.0
    ensures a1 * k < a2 * k
  {
    assert a2 * k - a1 * k == (a2 - a1) * k;
  }

  /** Subtracting from the same height reverses strict order. */
  lemma SubtractReversesOrder(y1: real, y2: real, top: real, d1: real, d2: real)
    requires y1 == top - d1 && y2 == top - d2 && d1 < d2
    ensures y1 > y2
  {
  }

  /**
   * Where the overlay's anchor lands on the page: its horizontal centre and
   * its baseline, in PDF units. A canvas of zero width or height would make
   * the scale factors non-finite; that case has no anchor.
   */
  function MapToPage(sig: Rect, canvas: Rect, page: Size, fontSize: real): (p: Option<Point>)
    ensures p.None? <==> canvas.width == 0.0 || canvas.height == 0.0
    ensures var w := OrElse(sig.width, DefaultBoxWidth);
            p.Some? ==> p.value.x * canvas.width == (sig.left - canvas.left + w / 2.0) * page.width
    ensures var h := OrElse(sig.height, fontSize);
            p.Some? ==> (page.height - p.value.y) * canvas.height ==
                        (sig.top - canvas.top + BaselineFraction * h) * page.height
    ensures var w := OrElse(sig.width, DefaultBoxWidth);
            p.Some? && sig.left + w / 2.0 == canvas.left + canvas.width / 2.0 ==> p.value.x == page.width / 2.0
    ensures var h := OrElse(sig.height, fontSize);
            p.Some? && sig.top + BaselineFraction * h == canvas.top ==> p.value.y == page.height
    ensures var h := OrElse(sig.height, fontSize);
            p.Some? && sig.top + BaselineFraction * h == canvas.Bottom() ==> p.value.y == 0.0
  {
    if canvas.width == 0.0 || canvas.height == 0.0 then None
    else
      var relX := sig.left - canvas.left;
      var relY := sig.top - canvas.top;
      var boxHeight := OrElse(sig.height, fontSize);
      var boxWidth := OrElse(sig.width, DefaultBoxWidth);
      Some(Point(PdfX(relX, boxWidth, page.width, canvas.width),
                 PdfY(relY, boxHeight, page.height, canvas.height)))
  }

  /**
   * An overlay measured as zero pixels high is mapped as if it were
   * `fontSize` high, one zero pixels wide as if it were 100 wide. An overlay
   * with a height is mapped the same whatever the font size.
   */
  lemma ZeroSizeFallback(sig: Rect, canvas: Rect, page: Size, fontSize: real, otherSize: real)
    ensures sig.height == 0.0 ==>
      MapToPage(sig, canvas, page, fontSize) == MapToPage(sig.(height := fontSize), canvas, page, fontSize)
    ensures sig.width == 0.0 ==>
      MapToPage(sig, canvas, page, fontSize) == MapToPage(sig.(width := DefaultBoxWidth), canvas, page, fontSize)
    ensures sig.height != 0.0 ==>
      MapToPage(sig, canvas, page, fontSize) == MapToPage(sig, canvas, page, otherSize)
  {
  }

  /** Only the overlay's position relative to the page canvas matters, not the scroll offset. */
  lemma MapToPageScrollInvariant(sig: Rect, canvas: Rect, page: Size, fontSize: real, dx: real, dy: real)
    ensures MapToPage(sig.Shift(dx, dy), canvas.Shift(dx, dy), page, fontSize) == MapToPage(sig, canvas, page, fontSize)
  {
    assert (sig.left + dx) - (canvas.left + dx) == sig.left - canvas.left;
    assert (sig.top + dy) - (canvas.top + dy) == sig.top - canvas.top;
  }

  /**
   * A two-page document whose first page is rendered 800x1000 pixels for a
   * 612x792 point page, with a 200x30 overlay at (150, 900): the first page
   * is chosen and the baseline lands at 792 - 922.5 * 0.792 = 61.38.
   */
  lemma TwoPageScenario()
    ensures TargetPageIndex(Rect(150.0, 900.0, 200.0, 30.0),
                            [Rect(0.0, 0.0, 800.0, 1000.0), Rect(0.0, 1000.0, 800.0, 1000.0)]) == 0
    ensures MapToPage(Rect(150.0, 900.0, 200.0, 30.0), Rect(0.0, 0.0, 800.0, 1000.0), Size(612.0, 792.0), 24.0)
            == Some(Point(191.25, 792.0 - 922.5 * 0.792))
    ensures 792.0 - 922.5 * 0.792 == 61.38
  {
  }
}

=== FILE: seqs.dfy ===
/** `Array.prototype.filter` on sequences and what it guarantees. */
module Seqs {

  /**
   * `r` is obtained from `s` by deleting elements: everything `r` holds
   * occurs in `s` in the same relative order.
   */
  predicate SubsequenceOf<T(==)>(r: seq<T>, s: seq<T>)
    decreases |s|
  {
    if |r| == 0 then true
    else if |s| == 0 then false
    else if r[0] == s[0] then SubsequenceOf(r[1..], s[1..])
    else SubsequenceOf(r, s[1..])
  }

  /**
   * The elements of `s` that satisfy `p`, in order. Every kept element
   * satisfies `p`, every element satisfying `p` is kept as often as it
   * occurs, and the order is that of `s`.
   */
  function Filter<T(==, !new)>(s: seq<T>, p: T -> bool): (r: seq<T>)
    ensures |r| <= |s|
    ensures forall i :: 0 <= i < |r| ==> p(r[i])
    ensures forall x :: multiset(r)[x] == if p(x) then multiset(s)[x] else 0
    ensures SubsequenceOf(r, s)
  {
    if |s| == 0 then []
    else
      assert s == [s[0]] + s[1..];
      var rest := Filter(s[1..], p);
      if p(s[0]) then
        var r := [s[0]] + rest;
        assert r[1..] == rest;
        r
      else
        rest
  }

  /** Two filters applied one after the other give the same result in either order. */
  lemma {:induction false} FilterCommutes<T(!new)>(s: seq<T>, p: T -> bool, q: T -> bool)
    ensures Filter(Filter(s, p), q) == Filter(Filter(s, q), p)
    decreases |s|
  {
    if |s| > 0 {
      FilterCommutes(s[1..], p, q);
      var x, rest := s[0], s[1..];
      if p(x) {
        assert ([x] + Filter(rest, p))[1..] == Filter(rest, p);
      }
      if q(x) {
        assert ([x] + Filter(rest, q))[1..] == Filter(rest, q);
      }
    }
  }
}

=== FILE: signing.dfy ===
/**
 * The decisions of "Download PDF": from the overlay, the rendered pages and
 * the PDF's page sizes to the text-drawing command and the metadata sent
 * with the signed file. The PDF library, the font fetch, the upload and
 * the download are not modelled; the measured text width is an input.
 */
module Signing {
  import opened Basics
  import opened Geometry
  import Fonts
  import Colour

  /** What the user chose on the page. */
  datatype Request = Request(
    fileName: string,
    signature: string,
    fontName: string,
    fontSize: real,
    colour: string)

  /**
   * The browser geometry read at the moment of signing: the overlay's
   * rectangle, each rendered page's canvas rectangle, and each PDF page's
   * native size.
   */
  datatype Snapshot = Snapshot(overlay: Rect, canvases: seq<Rect>, pageSizes: seq<Size>)

  /** The text-drawing call made on the target page. */
  datatype Draw = Draw(text: string, fontFile: string, x: real, y: real, size: real, colour: Colour.Rgb)

  /** The fields sent with the signed file, apart from the signing time. `page` counts from 1. */
  datatype Metadata = Metadata(name: string, signature: string, position: Point, page: nat)

  datatype Signed = Signed(pageIndex: nat, draw: Draw, meta: Metadata)

  datatype SignError =
    | NothingToSign       // no signature text: the handler returns at once
    | NoRenderedPage      // no canvas at the target index: the handler throws
    | NoPdfPage           // the PDF has no page at the target index: the handler throws
    | DegenerateCanvas    // zero-size canvas: the scale factors are not finite
    | ColourNotANumber    // a colour component parsed as NaN

  /** Prefix of the name the signed file is uploaded and saved under. */
  const SignedPrefix: string := "signed-"

  /** The left edge that centres text of width `textWidth` on `anchorX`. */
  function CentredLeft(anchorX: real, textWidth: real): (x: real)
    ensures x + textWidth / 2.0 == anchorX
  {
    anchorX - textWidth / 2.0
  }

  /**
   * Signing with the geometry snapshot and the width the embedded font
   * measures for the signature at the chosen size. Each failure is
   * characterised exactly; on success the drawing call and the metadata
   * agree on the page, the anchor and the text.
   */
  function Sign(req: Request, snap: Snapshot, textWidth: real): (r: Result<Signed, SignError>)
    ensures r == Err(NothingToSign) <==> req.signature == []
    ensures r == Err(NoRenderedPage) <==> req.signature != [] && |snap.canvases| == 0
    ensures r.Ok? ==> r.value.pageIndex < |snap.canvases| && r.value.pageIndex < |snap.pageSizes|
    ensures r.Ok? ==> r.value.pageIndex == TargetPageIndex(snap.overlay, snap.canvases)
    ensures r.Ok? ==> r.value.meta.page == r.value.pageIndex + 1 && r.value.meta.page >= 1
    ensures r.Ok? ==> r.value.draw.x + textWidth / 2.0 == r.value.meta.position.x
    ensures r.Ok? ==> r.value.draw.y == r.value.meta.position.y
    ensures r.Ok? ==> r.value.draw.text == req.signature == r.value.meta.signature
    ensures r.Ok? ==> r.value.draw.fontFile == Fonts.FontFile(req.fontName)
    ensures r.Ok? ==> r.value.draw.size == req.fontSize
    ensures r.Ok? ==> r.value.meta.name == SignedPrefix + req.fileName
    ensures r.Ok? ==> Colour.ParseColour(req.colour) == Some(r.value.draw.colour)
    ensures var i := TargetPageIndex(snap.overlay, snap.canvases);
            r == Err(NoPdfPage) <==> req.signature != [] && |snap.canvases| > 0 && i >= |snap.pageSizes|
    ensures var i := TargetPageIndex(snap.overlay, snap.canvases);
            r == Err(DegenerateCanvas) <==>
              req.signature != [] && i < |snap.canvases| && i < |snap.pageSizes| &&
              (snap.canvases[i].width == 0.0 || snap.canvases[i].height == 0.0)
    ensures var i := TargetPageIndex(snap.overlay, snap.canvases);
            r == Err(ColourNotANumber) <==>
              req.signature != [] && i < |snap.canvases| && i < |snap.pageSizes| &&
              snap.canvases[i].width != 0.0 && snap.canvases[i].height != 0.0 &&
              Colour.ParseColour(req.colour).None?
  {
    if req.signature == [] then Err(NothingToSign)
    else
      var i := TargetPageIndex(snap.overlay, snap.canvases);
      if i >= |snap.canvases| then Err(NoRenderedPage)
      else if i >= |snap.pageSizes| then Err(NoPdfPage)
      else
        match MapToPage(snap.overlay, snap.canvases[i], snap.pageSizes[i], req.fontSize)
        case None => Err(DegenerateCanvas)
        case Some(anchor) =>
          match Colour.ParseColour(req.colour)
          case None => Err(ColourNotANumber)
          case Some(rgb) =>
            var draw := Draw(req.signature, Fonts.FontFile(req.fontName),
                             CentredLeft(anchor.x, textWidth), anchor.y, req.fontSize, rgb);
            Ok(Signed(i, draw, Metadata(SignedPrefix + req.fileName, req.signature, anchor, i + 1)))
  }

  /**
   * The centre of the drawn text does not depend on the text: two signatures
   * of different widths placed with the same overlay share their midpoint.
   */
  lemma CentringIndependentOfText(req1: Request, req2: Request, snap: Snapshot, w1: real, w2: real)
    requires req1.(signature := req2.signature) == req2
    requires Sign(req1, snap, w1).Ok? && Sign(req2, snap, w2).Ok?
    ensures Sign(req1, snap, w1).value.draw.x + w1 / 2.0 == Sign(req2, snap, w2).value.draw.x + w2 / 2.0
    ensures Sign(req1, snap, w1).value.draw.y == Sign(req2, snap, w2).value.draw.y
  {
  }

  /** With a PDF page behind every rendered page and non-degenerate canvases, signing fails only for want of text or colour. */
  lemma SignSucceeds(req: Request, snap: Snapshot, textWidth: real)
    requires req.signature != []
    requires 0 < |snap.canvases| <= |snap.pageSizes|
    requires forall k :: 0 <= k < |snap.canvases| ==> snap.canvases[k].width != 0.0 && snap.canvases[k].height != 0.0
    requires Colour.IsHexColour(req.colour)
    ensures Sign(req, snap, textWidth).Ok?
  {
    Colour.HexColourComponents(req.colour);
  }

  /** The metadata records the PDF position of the overlay's anchor, before centring. */
  lemma MetadataRecordsAnchor(req: Request, snap: Snapshot, textWidth: real)
    requires Sign(req, snap, textWidth).Ok?
    ensures var s := Sign(req, snap, textWidth).value;
            Some(s.meta.position) == MapToPage(snap.overlay, snap.canvases[s.pageIndex], snap.pageSizes[s.pageIndex], req.fontSize)
  {
  }
}

=== FILE: store.dfy ===
/**
 * The signed-PDF store of the server: the upload, list and delete routes,
 * each a function from the request and a snapshot of the uploads directory
 * to the response and the directory afterwards. The directory is the
 * sequence of its file names in the order the file system lists them.
 */
module Store {
  import opened Basics
  import opened Text
  import opened Seqs

  type Directory = seq<string>

  datatype Body =
    | Message(text: string)
    | Uploaded(message: string, file: string)
    | Listing(files: seq<string>)
    | ErrorPage  // the framework's default answer to an exception the route throws

  datatype Response = Response(status: nat, body: Body)

  /**
   * A name a file in the directory can have: not empty, `.` or `..`, and
   * holding neither `/` nor the NUL character.
   */
  predicate ValidName(n: string) {
    n != "" && n != "." && n != ".." && '/' !in n && '\0' !in n
  }

  /** Distinct valid names. */
  predicate ValidDirectory(dir: Directory) {
    && (forall i :: 0 <= i < |dir| ==> ValidName(dir[i]))
    && (forall i, j :: 0 <= i < j < |dir| ==> dir[i] != dir[j])
  }

  // ---------------------------------------------------------------------------
  // Stored names

  /** The separators at which the upload middleware cuts a client's file name. */
  predicate IsSeparator(c: char) {
    c == '/' || c == '\\'
  }

  /**
   * What follows the last `/` or `\` of `s`: a suffix holding no separator,
   * preceded by a separator unless it is all of `s`.
   */
  function AfterLastSeparator(s: string): (t: string)
    ensures EndsWith(s, t)
    ensures forall i :: 0 <= i < |t| ==> !IsSeparator(t[i])
    ensures |t| < |s| ==> IsSeparator(s[|s| - |t| - 1])
  {
    if |s| == 0 || IsSeparator(s[|s| - 1]) then []
    else
      var init := s[..|s| - 1];
      var t := AfterLastSeparator(init);
      assert s[|s| - |t| - 1..] == init[|init| - |t|..] + [s[|s| - 1]];
      t + [s[|s| - 1]]
  }

  /**
   * The file name the upload middleware reports for the name the client
   * sent: what follows the last `/` or `\`, with `.` and `..` made empty.
   * A name without separators other than `.` and `..` is kept as it is.
   */
  function ClientBaseName(sent: string): (n: string)
    ensures '/' !in n && '\\' !in n && n != "." && n != ".."
    ensures EndsWith(sent, n)
    ensures (forall i :: 0 <= i < |sent| ==> !IsSeparator(sent[i])) && sent != "." && sent != ".." ==> n == sent
  {
    var t := AfterLastSeparator(sent);
    if t == "." || t == ".." then "" else t
  }

  /** The reported name is already a base name: cutting it again changes nothing. */
  lemma ClientBaseNameIdempotent(sent: string)
    ensures ClientBaseName(ClientBaseName(sent)) == ClientBaseName(sent)
  {
  }

  /** A `.pdf` name keeps its extension through the middleware's base naming. */
  lemma PdfNameSurvivesBaseName(sent: string)
    requires IsPdfName(sent)
    ensures IsPdfName(ClientBaseName(sent))
  {
    var t := AfterLastSeparator(sent);
    var k := |sent| - 4;
    PdfSuffixHasNoSeparator(sent[k..]);
    assert t[|t| - 4..] == sent[k..];
    assert ClientBaseName(sent) == t;
  }

  /** No character of `.pdf`, in any letter case, is a separator. */
  lemma PdfSuffixHasNoSeparator(tail: string)
    requires |tail| == 4 && ToLower(tail) == ".pdf"
    ensures forall i :: 0 <= i < 4 ==> !IsSeparator(tail[i])
  {
    forall i | 0 <= i < 4 ensures !IsSeparator(tail[i]) {
      assert ToLower(tail)[i] == LowerChar(tail[i]);
    }
  }

  /** The name a new upload is stored under: the millisecond clock, a dash, the base name the middleware reports. */
  function StoredName(timestamp: nat, original: string): (name: string)
    ensures StartsWith(name, Decimal(timestamp) + "-")
    ensures EndsWith(name, original)
    ensures |name| == |Decimal(timestamp)| + 1 + |original|
  {
    var stamp := Decimal(timestamp) + "-";
    assert (stamp + original)[..|stamp|] == stamp;
    assert (stamp + original)[|stamp|..] == original;
    stamp + original
  }

  /** The number of decimal digits `s` starts with. */
  function DigitPrefixLength(s: string): (n: nat)
    ensures n <= |s| && AllDigits(s[..n])
    ensures n < |s| ==> !IsDigit(s[n])
  {
    if |s| == 0 || !IsDigit(s[0]) then 0
    else
      var k := DigitPrefixLength(s[1..]);
      assert s[..k + 1] == [s[0]] + s[1..][..k];
      k + 1
  }

  /**
   * Splits a stored name back into the timestamp and the client's name: the
   * leading digits, then a dash, then the rest. A name that does not start
   * with a digit has no timestamp.
   */
  function ParseStoredName(name: string): (r: Option<(nat, string)>)
    ensures |name| == 0 || !IsDigit(name[0]) ==> r.None?
    ensures r.Some? ==>
      var k := |name| - |r.value.1| - 1;
      0 < k && name[k] == '-' && name[k + 1..] == r.value.1 &&
      AllDigits(name[..k]) && DecimalValue(name[..k]) == r.value.0
  {
    var n := DigitPrefixLength(name);
    if n == 0 || n == |name| || name[n] != '-' then None
    else Some((DecimalValue(name[..n]), name[n + 1..]))
  }

  /** A stored name determines the timestamp and the client's name it was made from. */
  lemma StoredNameRoundTrip(timestamp: nat, original: string)
    ensures ParseStoredName(StoredName(timestamp, original)) == Some((timestamp, original))
  {
    var d := Decimal(timestamp);
    var name := StoredName(timestamp, original);
    DigitPrefixOfNumeral(d, original);
    assert name[..|d|] == d;
    assert name[|d| + 1..] == original;
    DecimalRoundTrip(timestamp);
  }

  /** A numeral followed by a dash: the digit prefix is exactly the numeral. */
  lemma {:induction false} DigitPrefixOfNumeral(d: string, rest: string)
    requires AllDigits(d)
    ensures DigitPrefixLength(d + "-" + rest) == |d|
    decreases |d|
  {
    if |d| == 0 {
      assert (d + "-" + rest)[0] == '-';
    } else {
      assert (d + "-" + rest)[1..] == d[1..] + "-" + rest;
      DigitPrefixOfNumeral(d[1..], rest);
    }
  }

  // ---------------------------------------------------------------------------
  // Upload

  /** The directory after the upload middleware has written `name`; an existing file is overwritten in place. */
  function Store(dir: Directory, name: string): (r: Directory)
    ensures name in r
    ensures forall n :: n in r <==> n in dir || n == name
    ensures ValidDirectory(dir) && ValidName(name) ==> ValidDirectory(r)
  {
    if name in dir then dir else dir + [name]
  }

  /**
   * The upload route, after the upload middleware. `file` is the file name
   * the client sent, if a file part arrived. Without one the answer is 400
   * and nothing is stored; otherwise the file is stored under the stored
   * name of its base name and the answer carries that name.
   */
  function HandleUpload(file: Option<string>, timestamp: nat, dir: Directory): (r: (Response, Directory))
    ensures r.0.status == 400 <==> file.None?
    ensures file.None? ==> r.0.body == Message("No file uploaded") && r.1 == dir
    ensures file.Some? ==>
      r.0 == Response(200, Uploaded("Upload successful", StoredName(timestamp, ClientBaseName(file.value))))
    ensures file.Some? ==>
      forall n :: n in r.1 <==> n in dir || n == StoredName(timestamp, ClientBaseName(file.value))
  {
    match file
    case None => (Response(400, Message("No file uploaded")), dir)
    case Some(sent) =>
      var name := StoredName(timestamp, ClientBaseName(sent));
      (Response(200, Uploaded("Upload successful", name)), Store(dir, name))
  }

  /** Uploads keep the directory made of distinct plain names. */
  lemma UploadKeepsDirectoryValid(sent: string, timestamp: nat, dir: Directory)
    requires ValidDirectory(dir) && '\0' !in sent
    ensures ValidDirectory(HandleUpload(Some(sent), timestamp, dir).1)
  {
    var original := ClientBaseName(sent);
    assert original == sent[|sent| - |original|..];
    assert '\0' !in original;
    var name := StoredName(timestamp, original);
    assert name[0] == Decimal(timestamp)[0];
    assert name[|Decimal(timestamp)|] == '-';
  }

  // ---------------------------------------------------------------------------
  // Listing

  /**
   * The listing's filter: the lower-cased name ends in `.pdf`. Only the last
   * four characters matter, in any letter case.
   */
  predicate IsPdfName(n: string)
    ensures IsPdfName(n) <==> |n| >= 4 && ToLower(n[|n| - 4..]) == ".pdf"
  {
    assert |n| >= 4 ==> ToLower(n)[|n| - 4..] == ToLower(n[|n| - 4..]);
    EndsWith(ToLower(n), ".pdf")
  }

  /** The directory's PDF files, in directory order. */
  function ListPdfs(dir: Directory): (r: seq<string>)
    ensures forall i :: 0 <= i < |r| ==> IsPdfName(r[i])
    ensures forall n :: n in r <==> n in dir && IsPdfName(n)
    ensures forall n :: IsPdfName(n) ==> multiset(r)[n] == multiset(dir)[n]
    ensures SubsequenceOf(r, dir)
  {
    var r := Filter(dir, IsPdfName);
    assert forall n :: n in r <==> multiset(r)[n] > 0;
    assert forall n :: n in dir <==> multiset(dir)[n] > 0;
    r
  }

  /** The list route: 500 when the directory cannot be read, else the PDF names. */
  function HandleList(scan: Option<Directory>): (r: Response)
    ensures scan.None? <==> r.status == 500
    ensures scan.None? ==> r.body == Message("Unable to scan files")
    ensures scan.Some? ==> r == Response(200, Listing(ListPdfs(scan.value)))
  {
    match scan
    case None => Response(500, Message("Unable to scan files"))
    case Some(dir) => Response(200, Listing(ListPdfs(dir)))
  }

  /** A file uploaded with a `.pdf` name, in any letter case, is stored under a name the listing keeps. */
  lemma StoredPdfIsListed(timestamp: nat, original: string)
    requires IsPdfName(original)
    ensures IsPdfName(StoredName(timestamp, original))
  {
    var stamp := Decimal(timestamp) + "-";
    ToLowerConcat(stamp, original);
    EndsWithAfterPrefix(ToLower(stamp), ToLower(original), ".pdf");
  }

  /** After uploading a `.pdf` file, the next listing shows it. */
  lemma UploadedPdfAppearsInListing(sent: string, timestamp: nat, dir: Directory)
    requires IsPdfName(sent)
    ensures StoredName(timestamp, ClientBaseName(sent)) in ListPdfs(HandleUpload(Some(sent), timestamp, dir).1)
  {
    PdfNameSurvivesBaseName(sent);
    StoredPdfIsListed(timestamp, ClientBaseName(sent));
  }

  // ---------------------------------------------------------------------------
  // Delete

  /** Strips the trailing slashes of a path. */
  function StripTrailingSlashes(p: string): (q: string)
    ensures |q| <= |p| && q == p[..|q|]
    ensures |q| == 0 || q[|q| - 1] != '/'
    ensures '/' !in p ==> q == p
  {
    if |p| > 0 && p[|p| - 1] == '/' then StripTrailingSlashes(p[..|p| - 1]) else p
  }

  /** What follows the last `/`. */
  function LastSegment(p: string): (q: string)
    ensures '/' !in q
    ensures '/' !in p ==> q == p
  {
    if |p| == 0 then p
    else if p[|p| - 1] == '/' then []
    else
      var q := LastSegment(p[..|p| - 1]);
      assert '/' !in p ==> '/' !in p[..|p| - 1];
      q + [p[|p| - 1]]
  }

  /**
   * The POSIX `basename` of a path, as the route sanitises the requested
   * name: trailing slashes are dropped and what follows the last remaining
   * slash is kept. A plain name is its own basename.
   */
  function Basename(p: string): (b: string)
    ensures '/' !in b
    ensures '/' !in p ==> b == p
  {
    LastSegment(StripTrailingSlashes(p))
  }

  /** Names that resolve to a directory inside or above the uploads directory. */
  predicate NamesDirectory(n: string) {
    n == "" || n == "." || n == ".."
  }

  /** The test that keeps every name other than `name`. */
  function OtherThan(name: string): (keep: string -> bool)
    ensures forall n :: keep(n) <==> n != name
  {
    (n: string) => n != name
  }

  /** Every entry called `name` removed, everything else in order. */
  function RemoveName(dir: Directory, name: string): (r: Directory)
    ensures name !in r
    ensures forall n :: n != name ==> multiset(r)[n] == multiset(dir)[n]
    ensures SubsequenceOf(r, dir)
  {
    var r := Filter(dir, OtherThan(name));
    assert forall i :: 0 <= i < |r| ==> r[i] != name;
    r
  }

  /** Listing after removing a name is removing it from the listing. */
  lemma ListingWithoutName(dir: Directory, name: string)
    ensures ListPdfs(RemoveName(dir, name)) == RemoveName(ListPdfs(dir), name)
  {
    FilterCommutes(dir, IsPdfName, OtherThan(name));
  }

  /**
   * The delete route, once the uploads directory exists. A missing or empty
   * name is 400. The name is reduced
   * to its basename. A basename holding a NUL character makes the
   * file-system call throw before it looks at the disk, and the framework
   * answers 500 with its error page. An absent file is 404. A name that
   * resolves to a directory passes the existence check but cannot be
   * unlinked, and `unlinkFails` is the file system refusing the unlink:
   * both are 500. Otherwise the file is gone.
   */
  function HandleDelete(filename: Option<string>, dir: Directory, unlinkFails: bool): (r: (Response, Directory))
    ensures (filename.None? || filename == Some("")) <==> r.0.status == 400
    ensures r.0.status == 400 ==> r.0.body == Message("Filename is required")
    ensures r.0.status != 200 ==> r.1 == dir
    ensures filename.Some? && filename.value != "" && '\0' in Basename(filename.value) ==>
      r.0 == Response(500, ErrorPage)
    ensures r.0.status == 200 <==>
      filename.Some? && filename.value != "" && '\0' !in Basename(filename.value) &&
      Basename(filename.value) in dir && !NamesDirectory(Basename(filename.value)) && !unlinkFails
    ensures r.0.status == 200 ==>
      r.0.body == Message("File deleted successfully") &&
      r.1 == RemoveName(dir, Basename(filename.value))
    ensures r.0.status == 404 <==>
      filename.Some? && filename.value != "" && '\0' !in Basename(filename.value) &&
      Basename(filename.value) !in dir && !NamesDirectory(Basename(filename.value))
    ensures r.0.status in {200, 400, 404, 500}
  {
    if filename.None? || filename.value == "" then
      (Response(400, Message("Filename is required")), dir)
    else
      var safe := Basename(filename.value);
      if '\0' in safe then (Response(500, ErrorPage), dir)
      else if NamesDirectory(safe) then (Response(500, Message("Failed to delete file")), dir)
      else if safe !in dir then (Response(404, Message("File not found")), dir)
      else if unlinkFails then (Response(500, Message("Failed to delete file")), dir)
      else (Response(200, Message("File deleted successfully")), RemoveName(dir, safe))
  }

  /**
   * The delete route before the first upload, when the uploads directory
   * does not exist yet. Every existence check fails, except the one for a
   * basename of `..`: that resolves to the routes' parent directory, which
   * exists and cannot be unlinked.
   */
  function HandleDeleteWithoutDirectory(filename: Option<string>): (r: Response)
    ensures (filename.None? || filename == Some("")) <==> r.status == 400
    ensures r.status == 400 ==> r.body == Message("Filename is required")
    ensures filename.Some? && filename.value != "" && '\0' in Basename(filename.value) ==>
      r == Response(500, ErrorPage)
    ensures r.status == 404 <==>
      filename.Some? && filename.value != "" && '\0' !in Basename(filename.value) &&
      Basename(filename.value) != ".."
    ensures r.status != 200
  {
    if filename.None? || filename.value == "" then Response(400, Message("Filename is required"))
    else
      var safe := Basename(filename.value);
      if '\0' in safe then Response(500, ErrorPage)
      else if safe == ".." then Response(500, Message("Failed to delete file"))
      else Response(404, Message("File not found"))
  }

  /**
   * A missing uploads directory answers as an empty one does, except for a
   * basename of `""` or `.`: with the directory present that names the
   * directory itself (500), without it nothing (404).
   */
  lemma MissingDirectoryActsEmpty(filename: Option<string>, unlinkFails: bool)
    ensures (filename.None? || filename.value == "" ||
             (Basename(filename.value) != "" && Basename(filename.value) != ".")) ==>
      HandleDeleteWithoutDirectory(filename) == HandleDelete(filename, [], unlinkFails).0
    ensures (filename.Some? && filename.value != "" &&
             (Basename(filename.value) == "" || Basename(filename.value) == ".")) ==>
      HandleDeleteWithoutDirectory(filename).status == 404 &&
      HandleDelete(filename, [], unlinkFails).0.status == 500
  {
  }

  /** Deleting a listed plain name removes exactly that name and leaves every other file. */
  lemma DeletePlainName(name: string, dir: Directory)
    requires ValidDirectory(dir) && name in dir
    ensures HandleDelete(Some(name), dir, false).0.status == 200
    ensures forall n :: n in HandleDelete(Some(name), dir, false).1 <==> n in dir && n != name
  {
    var r := RemoveName(dir, name);
    forall n ensures n in r <==> n in dir && n != name {
      assert n in r <==> multiset(r)[n] > 0;
      assert n in dir <==> multiset(dir)[n] > 0;
    }
  }

  /** Deletion keeps the directory made of distinct plain names. */
  lemma DeleteKeepsDirectoryValid(filename: Option<string>, dir: Directory, unlinkFails: bool)
    requires ValidDirectory(dir)
    ensures ValidDirectory(HandleDelete(filename, dir, unlinkFails).1)
  {
    var r := HandleDelete(filename, dir, unlinkFails);
    if r.0.status == 200 {
      SubsequenceKeepsValid(r.1, dir);
    }
  }

  /** Deleting entries keeps names plain and distinct. */
  lemma {:induction false} SubsequenceKeepsValid(r: Directory, dir: Directory)
    requires ValidDirectory(dir) && SubsequenceOf(r, dir)
    ensures ValidDirectory(r)
    decreases |dir|
  {
    if |r| > 0 {
      assert |dir| > 0;
      assert ValidDirectory(dir[1..]);
      if r[0] == dir[0] {
        SubsequenceKeepsValid(r[1..], dir[1..]);
        SubsequenceElements(r[1..], dir[1..]);
        assert forall j :: 0 < j < |r| ==> r[j] != r[0] by {
          forall j | 0 < j < |r| ensures r[j] != r[0] {
            assert r[1..][j - 1] in dir[1..];
          }
        }
        forall i, j | 0 <= i < j < |r| ensures r[i] != r[j] {
          if i > 0 {
            assert r[1..][i - 1] != r[1..][j - 1];
          }
        }
        forall i | 0 <= i < |r| ensures ValidName(r[i]) {
          if i > 0 {
            assert r[1..][i - 1] == r[i];
          }
        }
      } else {
        SubsequenceKeepsValid(r, dir[1..]);
      }
    }
  }

  /** Whatever a subsequence holds, the sequence holds. */
  lemma {:induction false} SubsequenceElements<T>(r: seq<T>, s: seq<T>)
    requires SubsequenceOf(r, s)
    ensures forall i :: 0 <= i < |r| ==> r[i] in s
    decreases |s|
  {
    if |r| > 0 {
      if r[0] == s[0] {
        SubsequenceElements(r[1..], s[1..]);
        forall i | 0 < i < |r| ensures r[i] in s {
          assert r[1..][i - 1] in s[1..];
        }
      } else {
        SubsequenceElements(r, s[1..]);
      }
    }
  }
}

=== FILE: text.dfy ===
/** String helpers: prefixes and suffixes, ASCII case, decimal numerals. */
module Text {

  predicate StartsWith(s: string, prefix: string) {
    |prefix| <= |s| && s[..|prefix|] == prefix
  }

  predicate EndsWith(s: string, suffix: string) {
    |suffix| <= |s| && s[|s| - |suffix|..] == suffix
  }

  /** A suffix of `b` stays a suffix when anything is put in front of `b`. */
  lemma EndsWithAfterPrefix(a: string, b: string, suffix: string)
    requires EndsWith(b, suffix)
    ensures EndsWith(a + b, suffix)
  {
    assert (a + b)[|a + b| - |suffix|..] == b[|b| - |suffix|..];
  }

  // ---------------------------------------------------------------------------
  // Case

  predicate IsUpper(c: char) {
    'A' <= c <= 'Z'
  }

  /** `String.prototype.toLowerCase` restricted to ASCII letters. */
  function LowerChar(c: char): (l: char)
    ensures !IsUpper(l)
    ensures !IsUpper(c) ==> l == c
  {
    if 'A' <= c <= 'Z' then (c as int + 32) as char else c
  }

  /**
   * Lower-casing: same length, each character lower-cased on its own, no
   * upper-case ASCII letter left, every other character kept.
   */
  function ToLower(s: string): (r: string)
    ensures |r| == |s|
    ensures forall i :: 0 <= i < |s| ==> r[i] == LowerChar(s[i])
    ensures forall i :: 0 <= i < |r| ==> !IsUpper(r[i])
    ensures forall i :: 0 <= i < |s| && !IsUpper(s[i]) ==> r[i] == s[i]
  {
    seq(|s|, i requires 0 <= i < |s| => LowerChar(s[i]))
  }

  /** Lower-casing works character by character, so it distributes over `+`. */
  lemma ToLowerConcat(a: string, b: string)
    ensures ToLower(a + b) == ToLower(a) + ToLower(b)
  {
  }

  // ---------------------------------------------------------------------------
  // Decimal numerals, as JavaScript prints a non-negative integer

  predicate IsDigit(c: char) {
    '0' <= c <= '9'
  }

  predicate AllDigits(s: string) {
    forall i :: 0 <= i < |s| ==> IsDigit(s[i])
  }

  function DigitChar(d: nat): (c: char)
    requires d < 10
    ensures IsDigit(c)
  {
    ('0' as int + d) as char
  }

  function DigitValue(c: char): (d: nat)
    requires IsDigit(c)
    ensures d < 10
  {
    c as int - '0' as int
  }

  /** The decimal numeral of `n`: digits only, never empty, no leading zero. */
  function Decimal(n: nat): (s: string)
    ensures |s| >= 1
    ensures AllDigits(s)
    ensures s[0] == '0' ==> n == 0
    decreases n
  {
    if n < 10 then [DigitChar(n)] else Decimal(n / 10) + [DigitChar(n % 10)]
  }

  /** The number a string of decimal digits denotes. */
  function DecimalValue(s: string): nat
    requires AllDigits(s)
  {
    if |s| == 0 then 0 else 10 * DecimalValue(s[..|s| - 1]) + DigitValue(s[|s| - 1])
  }

  /** Reading back a printed numeral gives the number that was printed. */
  lemma {:induction false} DecimalRoundTrip(n: nat)
    ensures DecimalValue(Decimal(n)) == n
    decreases n
  {
    var s := Decimal(n);
    if n < 10 {
      assert s == [DigitChar(n)];
      assert s[..0] == [];
    } else {
      DecimalRoundTrip(n / 10);
      assert s[..|s| - 1] == Decimal(n / 10);
    }
  }
}
